=== FILE: README.md ===
# Contest lifecycle validation, modelled in Dafny

The system keeps a Contest aggregate (Draft → Public → Finalized) and checks
its business rules when changes are committed to the store, not at the API.
Every asynchronous save goes through a commit interceptor. The interceptor
takes a snapshot of the tracked entries (each with its pending state and its
original and current values) and publishes it to the registered lifecycle
validators before anything is written. Any validator may veto, and a veto
aborts the whole save. A generic dispatch base keeps the entries of one
entity type and routes Added, Modified and Deleted entries to three hooks.
The contest validator implements the state machine on those hooks. Five
command handlers (create, update, publish, finalize, delete) find a contest,
change it and commit through this path.

The model has one module per part:

- `Errors` (errors.dfy): one error constructor per exception message, plus
  `Outcome` and `Result`.
- `Entities` (contest.dfy): `ContestStatus`, the `Contest` record and its
  defaults. DateTime values are integer ticks, and three days is a constant.
- `Persistence` (entity_lifecycle_handler.dfy): snapshot entries, the generic
  `LifecycleHandler` with its three hooks, the `Handle` loop and what it
  computes (`HandleSpec`).
- `ContestLifecycle` (contest_lifecycle_handler.dfy): the contest validator's
  hooks as pure functions. The two store queries (contestant count, "any
  contestant") are inputs.
- `Interception` (save_changes_interceptor.dfy): the ordered publish to the
  validators and the interceptor class with its `isSaving`/`isFinalizing`
  fields. The flag machine is also written as values (`AfterSaving`,
  `AfterSaved`, `AfterCommit`, `Run`), and the class methods are proved to
  follow it.
- `Contests` (contest_commands.dfy): the `Database` class is the shared
  store. It holds the contests by id and the stored contestants (a multiset
  of contest ids), and it outlives every context. The `DbCtx` class is one
  context over that store, as short-lived as one request. It holds the
  test-only bypass flag and an interceptor created with the context. Its
  methods are the save paths and the five commands. A commit writes the
  whole snapshot or nothing.
- `ContestScenarios` (contest_scenarios.dfy): three command sequences over
  one database and one sequence of nested saves on one interceptor, proved
  from the contracts alone.

The update hook follows the code's order. The first failing check is the
error reported:

1. the Draft → Public lock-date guard;
2. the Public → Finalized guard, which checks the contestant count before the
   lock date;
3. the frozen-field guard (name, then lock date) whenever the new status is
   not Draft;
4. the table of forbidden transitions.

The interceptor's flags are cleared only by the post-save hook. A vetoed save
never reaches that hook, so `isSaving` stays raised. The next save on the
same context that does not opt out is therefore not validated. That save then
reaches the post-save hook, which clears both flags. So the effect lasts for
exactly one save, not forever. `SkippedOnlyAfterVeto` and
`VetoSkipsNextValidation` state this. Each context has its own interceptor,
and the application and its test bed give every request or command a new
context. So the skip only affects later saves on the context whose save was
vetoed. `PublishAgainAfterVeto` shows the skip with two publishes on one
context. `FreshContextValidatesAgain` shows that a new context validates the
same publish and vetoes it again.

## Model

| member | source | states |
|---|---|---|
| `Entities.NewContest` | Domain/Entities/Contest.cs:12-15 | A contest built from a name has that name and status Draft. Its lock date is exactly three days after construction time. The id is the one the store supplies. |
| `ContestLifecycle.Added` | Application/Contests/ContestLifecycleHandler.cs:20-34 | An inserted contest is accepted if and only if its status is Draft. Otherwise the error is the "created in a draft state" one. |
| `ContestLifecycle.PublishGuard` | Application/Contests/ContestLifecycleHandler.cs:41-51 | Rejects exactly the Draft → Public updates whose current lock date is less than now + 3 days, with the publish error. |
| `ContestLifecycle.FinalizeGuard` | Application/Contests/ContestLifecycleHandler.cs:53-69 | Rejects exactly the Public → Finalized updates with fewer than 10 contestants or a lock date after now. Fewer than 10 gives the count error; otherwise the error is the lock-date one. |
| `ContestLifecycle.ImmutabilityGuard` | Application/Contests/ContestLifecycleHandler.cs:71-88 | Accepts if and only if the current status is Draft or neither name nor lock date changed. A name change gives the name error; otherwise the error is the lock-date one. This applies even when the status itself is unchanged. |
| `ContestLifecycle.TransitionTable` | Application/Contests/ContestLifecycleHandler.cs:90-104 | The forbidden pairs are exactly the status pairs outside {unchanged, Draft → Public, Public → Finalized}. Each one raises its own error: Public → Draft the "reverted from published" error, Finalized → Draft the "reverted from finalized" error, Draft → Finalized the "finalized from draft" error, and Finalized → Public the "reverted to public" error. |
| `ContestLifecycle.Modified` | Application/Contests/ContestLifecycleHandler.cs:36-105 | Accepts if and only if all four checks accept. An accepted update only keeps the status or moves it Draft → Public or Public → Finalized. It changes no name or lock date once the contest is, or was, past Draft. Publishing needs lock date >= now + 3 days; finalizing needs >= 10 contestants and lock date <= now. Which error a rejected update reports is stated by `ModifiedErrorPrecedence`. |
| `ContestLifecycle.ModifiedErrorPrecedence` | Application/Contests/ContestLifecycleHandler.cs:41-104 | Which error wins when several rules break: the publish guard first, then the count before the lock date, then a frozen name or lock date before the table. For example, Finalized → Public with a name change reports the name error. A revert to Draft reports the table's error. When both status guards pass, a changed frozen field reports the frozen-field guard's error, even on an allowed pair such as a rename of a Public contest. When the first three checks pass, the result is the table's verdict, with its own error for Draft → Finalized and Finalized → Public. So every rejected update's error is determined. |
| `ContestLifecycle.Deleted` | Application/Contests/ContestLifecycleHandler.cs:107-120 | A delete is rejected if and only if some contestant references the contest, with the delete error. |
| `ContestLifecycle.AcceptedSnapshotRespectsLifecycle` | Application/Contests/ContestLifecycleHandler.cs:20-120 | In a snapshot the contest validator accepts, every contest entry is one of three things: an insert in Draft, a delete of an unreferenced contest, or an update along Draft → Public → Finalized. Such an update changes neither name nor lock date when the original or the new status is past Draft; this includes the publishing update itself. |
| `Persistence.Dispatch` | Application/Persistence/EntityLifeCycleHandler.cs:11-26 | An entry of another type, or in a state other than Added, Modified or Deleted, reaches no hook. Otherwise it reaches exactly the hook its state names. |
| `Persistence.Handle` | Application/Persistence/EntityLifeCycleHandler.cs:9-28 | The loop computes `HandleSpec`: entries in list order, with the first veto as the result. |
| `Persistence.HandlePassIff` | Application/Persistence/EntityLifeCycleHandler.cs:9-28 | `Handle` succeeds if and only if every entry's dispatch succeeds. |
| `Persistence.HandleStopsAtFirstVeto` | Application/Persistence/EntityLifeCycleHandler.cs:11-27 | The first vetoed entry's error is the result, whatever entries follow it. |
| `Persistence.OfKind` | Application/Persistence/EntityLifeCycleHandler.cs:11 | The filtered snapshot holds exactly the entries of the handler's entity type, and no others. |
| `Persistence.HandleSeesOnlyItsKind` | Application/Persistence/EntityLifeCycleHandler.cs:11 | Removing every entry of another type from the snapshot does not change the result. |
| `Persistence.DefaultHandlerAcceptsAll` | Application/Persistence/EntityLifeCycleHandler.cs:30-32 | With the three default hooks, every snapshot is accepted. |
| `Interception.Publish` | Application/Persistence/EntityLifecycleSaveChangesInterceptor.cs:44-45 | The loop computes `PublishSpec`: validators in registration order, with the first veto as the result. |
| `Interception.PublishPassIff` | Application/Persistence/EntityLifecycleSaveChangesInterceptor.cs:45 | A publish succeeds if and only if every validator accepts the snapshot. |
| `Interception.Forward` | Application/Persistence/EntityLifecycleSaveChangesInterceptor.cs:45-47 | After a successful publish, `result` comes back unchanged. After a veto, the veto's error comes back. |
| `Interception.AfterSaving` | Application/Persistence/EntityLifecycleSaveChangesInterceptor.cs:32-42 | The pre-save hook leaves `isFinalizing` alone. It leaves both flags alone when the context opts out. Otherwise `isSaving` ends up raised. |
| `Interception.AfterSaved` | Application/Persistence/EntityLifecycleSaveChangesInterceptor.cs:55-71 | The post-save hook leaves the flags alone when the context opts out or `isFinalizing` is set. Otherwise it returns both flags to false. |
| `Interception.RunKeepsFinalizingClear` | Application/Persistence/EntityLifecycleSaveChangesInterceptor.cs:60-71 | Over any series of saves, `isFinalizing` is never left raised between saves. |
| `Interception.NestedSaveIsNotValidated` | Application/Persistence/EntityLifecycleSaveChangesInterceptor.cs:37-42 | Right after the pre-save hook starts validating a save, the first nested save on the same interceptor is not validated, provided no nested save has finished yet. |
| `Interception.NestedSaveClearsTheGuard` | Application/Persistence/EntityLifecycleSaveChangesInterceptor.cs:37-71 | The guard lasts only until the first nested save finishes. That save's post-save hook clears both flags while the outer save is still in its publish, so a second nested save is validated again. The reentrancy guard therefore protects only a validator that saves at most once. |
| `Interception.SavingOnlyAfterVeto` | Application/Persistence/EntityLifecycleSaveChangesInterceptor.cs:37-71 | `isSaving` is raised between saves only if an earlier save was validated and vetoed, and every save since then opted out. |
| `Interception.SkippedOnlyAfterVeto` | Application/Persistence/EntityLifecycleSaveChangesInterceptor.cs:37-42 | A save that does not opt out skips validation only right after a vetoed save, with only opted-out saves in between. |
| `Interception.VetoSkipsNextValidation` | Application/Persistence/EntityLifecycleSaveChangesInterceptor.cs:42-71 | After a vetoed save, the next save that does not opt out is not validated. That save returns both flags to false. |
| `Interception.EntityLifecycleSaveChangesInterceptor.constructor` | Application/Persistence/EntityLifecycleSaveChangesInterceptor.cs:11-21 | A new interceptor starts with both flags false. |
| `Interception.EntityLifecycleSaveChangesInterceptor.SavingChanges` | Application/Persistence/EntityLifecycleSaveChangesInterceptor.cs:24-25 | The synchronous save always fails with the "SaveChangesAsync only" error, whatever the flags. |
| `Interception.EntityLifecycleSaveChangesInterceptor.SavingChangesAsync` | Application/Persistence/EntityLifecycleSaveChangesInterceptor.cs:27-48 | When the context opts out or `isSaving` is set, `result` comes back and nothing is published. Otherwise `isSaving` is raised, the snapshot is published, and the result is `result` or the veto. The flags follow `AfterSaving`. |
| `Interception.EntityLifecycleSaveChangesInterceptor.SavedChangesAsync` | Application/Persistence/EntityLifecycleSaveChangesInterceptor.cs:50-74 | Returns `result`. The flags follow `AfterSaved`. |
| `Contests.VerdictOfOne` | Application/Persistence/EntityLifeCycleHandler.cs:11-27 | A validated commit of a one-entry snapshot gets the contest validator's dispatch of that entry as its verdict. |
| `Contests.VerdictOfChange` | Application/Contests/ContestLifecycleHandler.cs:36-105 | A validated commit of one changed contest is judged by the update hook, with the stored contestant count. An unchanged contest is accepted. |
| `Contests.VerdictOfInsert` | Application/Contests/ContestLifecycleHandler.cs:20-34 | A validated commit of one new contest is judged by the insert hook. |
| `Contests.VerdictOfRemoval` | Application/Contests/ContestLifecycleHandler.cs:107-120 | A validated commit of one removed contest is judged by the delete hook. The hook is told whether any stored contestant references the contest. |
| `Contests.WriteKeepsKeys` | Domain/Entities/Contest.cs:12 | Writing a snapshot keeps every stored contest under its own id. So ids never change. |
| `Contests.Database.constructor` | Api/Program.cs:10-15 | The shared in-memory database starts with no contests and no contestants. |
| `Contests.DbCtx.constructor` | Application/Persistence/DbCtx.cs:7-24 | A new context opens onto the given existing database, whatever it already stores. Validation is on, and the context gets a fresh idle interceptor of its own. |
| `Contests.DbCtx.SaveChanges` | Application/Persistence/EntityLifecycleSaveChangesInterceptor.cs:24-25 | The synchronous save always fails and writes nothing. |
| `Contests.DbCtx.SaveChangesAsync` | Application/Persistence/EntityLifecycleSaveChangesInterceptor.cs:27-74 | All or nothing. If the save is validated and vetoed, nothing is written and the veto is returned. Otherwise every entry is written and the number written is returned. The interceptor's flags follow `AfterCommit`. |
| `Contests.DbCtx.CreateContest` | Application/Contests/CreateContestCommand.cs:15-26 | Always succeeds, because the insert check passes. It stores and returns a new Draft contest under a fresh id, with the given name and a lock date three days out. |
| `Contests.DbCtx.UpdateContest` | Application/Contests/UpdateContestCommand.cs:15-26 | An unknown id gives "Contest not found." and nothing is committed. Only name and lock date are set. Under validation the update commits if and only if the contest is Draft or neither field changes. Otherwise the error is the name one or the lock-date one, and the store is unchanged. |
| `Contests.DbCtx.PublishContest` | Application/Contests/PublishContestCommand.cs:15-24 | An unknown id gives "Contest not found.". Only the status is set, to Public. Under validation a Draft contest is published if and only if its lock date is >= now + 3 days. A Finalized contest fails with the Finalized → Public error. A Public contest is returned unchanged. A failure leaves the store unchanged. |
| `Contests.DbCtx.FinalizeContest` | Application/Contests/FinalizeContestCommand.cs:15-27 | An unknown id gives "Contest not found.". Only the status is set, to Finalized. Under validation a Draft contest fails with the Draft → Finalized error. A Public contest is finalized if and only if it has >= 10 stored contestants and its lock date is <= now; the count error takes precedence. A failure leaves the store unchanged. |
| `Contests.DbCtx.DeleteContest` | Application/Contests/DeleteContestCommand.cs:15-24 | An unknown id gives "Contest not found.". Under validation the contest is removed if and only if no stored contestant references it. Otherwise the delete error is returned and the contest remains. |
| `ContestScenarios.PublishAgainAfterVeto` | Application.Test/Contests/ContestLifecycleTest.cs:38-60 | On one context, publishing right after creation is vetoed. Repeating the same publish on that context goes through unvalidated, even though the lock date is less than three days out. |
| `ContestScenarios.FreshContextValidatesAgain` | Application/Persistence/DbCtx.cs:23-24 | After a vetoed publish, the same publish on a new context over the same database is validated and vetoed again. |
| `ContestScenarios.TwoNestedSaves` | Application/Persistence/EntityLifecycleSaveChangesInterceptor.cs:37-71 | On one interceptor, a save is being validated and two saves are nested inside it. The first nested save passes through unvalidated. After it finishes, the second nested save is validated, and its result is the validators' verdict. |
| `ContestScenarios.FullLifecycle` | Application.Test/Contests/ContestCommandsTest.cs:57-76 | Each command runs on a new context over one database, as the test bed's command runner does. The steps are: create, set the lock date ten days out, publish, seed ten contestants through a context with validation off, then finalize once the lock date has come. The result is a Finalized contest with the given name and lock date. |

## Left out

- `Contests.DbCtx`: the context's change tracker is not modelled. Each command builds its own one-entry snapshot, and "modified" means the original value differs from the current one. A vetoed snapshot is dropped. The real tracker keeps its pending entries until the context is disposed, so a later pass-through save on the same context would also write the vetoed changes. The model does not capture that, and its lookups by id read only the store, not tracked entities. Because the application and the test bed use a new context per request or command, this only matters for several saves on one context.
- The post-save notification has no subscribers, so it is reduced to its effect on the flags. A subscriber that threw would leave the flags raised; that is not modelled.
- The mediator's publish is modelled as running the registered validators in order and stopping at the first veto. Dependency injection and the registration itself are not modelled.
- Asynchrony and cancellation tokens are not modelled; everything runs in sequence.
- The clock is the explicit `now` argument, one value per command. The source reads the clock separately at construction and in each check. DateTime range limits are not modelled.
- The HTTP controller, hosting, logging and the test bed (its singleton, scopes and entity reloads) are left out.
- Users are not modelled, and contestants are kept only as the id of the contest they reference. That is enough for the count and existence queries.
- Key generation is a counter in the store. The model does not wrap it at 32 bits.
- `Contests.DbCtx.SaveChangesAsync`: requires the snapshot's contests to carry ids the store has issued. EF Core's key generation guarantees this and the model does not repeat it.
- The command test at Application.Test/Contests/ContestCommandsTest.cs:57-76 finalizes while the lock date is still ten days out and expects success. Under the finalize guard (Application/Contests/ContestLifecycleHandler.cs:63-66), a validated finalize there fails with the lock-date error. `FullLifecycle` therefore finalizes once the lock date has come.

=== FILE: contest.dfy ===
/** The Contest entity and its status enumeration. */
module Entities {

  /** Timestamps are DateTime ticks (100 ns); a day has 864 000 000 000 of them. */
  const TicksPerDay: int := 864_000_000_000
  const ThreeDays: int := 3 * TicksPerDay

  datatype ContestStatus = Draft | Public | Finalized

  /** The row of a contest: identity, name, lock date (in ticks) and status. */
  datatype Contest = Contest(id: int, name: string, lockDate: int, status: ContestStatus)

  /** A contest built with only its name supplied, at time `now`; the store
      assigns `id`. The lock date and the status take their initialisers. */
  function NewContest(id: int, name: string, now: int): (c: Contest)
    ensures c.id == id && c.name == name
    ensures c.status == Draft
    ensures c.lockDate - now == ThreeDays
  {
    Contest(id, name, now + ThreeDays, Draft)
  }
}

=== FILE: contest_commands.dfy ===
/** The contest store and the five contest commands.

    `Database` is the shared store: the stored contests keyed by id and the
    stored contestants (each known by the id of the contest it references).
    It outlives every context. `DbCtx` is one database context over it, as
    short-lived as one request: the test-only switch that bypasses
    validation and the context's own commit interceptor, created with the
    context. A command finds its contest, changes it in memory and commits a
    snapshot of that one entry through its context; the commit runs the
    validators and then writes all of the snapshot or none of it. */
module Contests {
  import opened Errors
  import opened Entities
  import opened Persistence
  import ContestLifecycle
  import opened Interception

  /** The validators registered with the store: the contest validator, for a
      commit at time `now`, counting the stored contestants of a contest. */
  function Validators(now: int, contestants: multiset<int>): seq<LifecycleHandler> {
    [ContestLifecycle.Handler(now, id => contestants[id])]
  }

  /** The verdict on a commit: the validators' publish when the interceptor
      validates the commit, acceptance when it passes it through. */
  function Verdict(validates: bool, now: int, contestants: multiset<int>, entries: seq<EntityEntry>): Outcome {
    if validates then PublishSpec(Validators(now, contestants), entries) else Pass
  }

  /** A validated commit of a one-entry snapshot is the contest validator's
      dispatch of that entry. */
  lemma VerdictOfOne(now: int, contestants: multiset<int>, entry: EntityEntry)
    ensures Verdict(true, now, contestants, [entry]) == Dispatch(Validators(now, contestants)[0], entry)
  {
    var handlers := Validators(now, contestants);
    assert handlers[1..] == [];
    assert [entry][1..] == [];
    assert HandleSpec(handlers[0], [entry]) == Dispatch(handlers[0], entry);
    assert PublishSpec(handlers[1..], [entry]) == Pass;
    assert PublishSpec(handlers, [entry]) == HandleSpec(handlers[0], [entry]);
  }

  /** A validated commit of one loaded-and-changed contest is judged by the
      update hook, or passes untouched when nothing changed. */
  lemma VerdictOfChange(now: int, contestants: multiset<int>, original: Contest, current: Contest)
    ensures Verdict(true, now, contestants, [TrackedChange(ContestEntity(original), ContestEntity(current))]) ==
            if original == current then Pass
            else ContestLifecycle.Modified(original, current, contestants[current.id], now)
  {
    var e := TrackedChange(ContestEntity(original), ContestEntity(current));
    VerdictOfOne(now, contestants, e);
    var h := Validators(now, contestants)[0];
    if original != current {
      assert h.modified(e) == ContestLifecycle.Modified(original, current, contestants[current.id], now);
    }
  }

  /** A validated commit of one new contest is judged by the insert hook. */
  lemma VerdictOfInsert(now: int, contestants: multiset<int>, contest: Contest)
    ensures Verdict(true, now, contestants, [Inserted(ContestEntity(contest))]) == ContestLifecycle.Added(contest)
  {
    VerdictOfOne(now, contestants, Inserted(ContestEntity(contest)));
  }

  /** A validated commit of one removed contest is judged by the delete hook,
      told whether any stored contestant references the contest. */
  lemma VerdictOfRemoval(now: int, contestants: multiset<int>, contest: Contest)
    ensures Verdict(true, now, contestants, [Removed(ContestEntity(contest))]) ==
            ContestLifecycle.Deleted(contest, contestants[contest.id] > 0)
  {
    var e := Removed(ContestEntity(contest));
    VerdictOfOne(now, contestants, e);
    var h := Validators(now, contestants)[0];
    assert h.deleted(e) == ContestLifecycle.Deleted(contest, contestants[contest.id] > 0);
  }

  /** Every stored contest sits under its own id, and ids stay below `bound`. */
  ghost predicate KeyedBelow(contests: map<int, Contest>, bound: int) {
    forall k | k in contests :: contests[k].id == k && k < bound
  }

  /** Every contest in the snapshot has an id the store has issued. */
  ghost predicate IssuedIds(entries: seq<EntityEntry>, bound: int) {
    forall i | 0 <= i < |entries| :: entries[i].current.ContestEntity? ==> entries[i].current.contest.id < bound
  }

  /** Writing one entry: an inserted or modified contest is stored under its
      id, a deleted one is removed; other entries leave the contests alone. */
  function WriteContest(contests: map<int, Contest>, entry: EntityEntry): map<int, Contest> {
    match entry.current
    case ContestEntity(c) =>
      (match entry.state
       case Added => contests[c.id := c]
       case Modified => contests[c.id := c]
       case Deleted => contests - {c.id}
       case _ => contests)
    case _ => contests
  }

  function WriteContests(contests: map<int, Contest>, entries: seq<EntityEntry>): map<int, Contest>
    decreases |entries|
  {
    if entries == [] then contests else WriteContests(WriteContest(contests, entries[0]), entries[1..])
  }

  /** Writing the contestant entries: an inserted contestant adds one reference
      to its contest, a deleted one removes one. */
  function WriteContestants(contestants: multiset<int>, entries: seq<EntityEntry>): multiset<int>
    decreases |entries|
  {
    if entries == [] then contestants
    else
      var e := entries[0];
      var next :=
        if e.current.ContestantEntity? && e.state == Added then contestants + multiset{e.current.contestId}
        else if e.current.ContestantEntity? && e.state == Deleted then contestants - multiset{e.current.contestId}
        else contestants;
      WriteContestants(next, entries[1..])
  }

  /** Writing a snapshot keeps every contest under its own id. */
  lemma {:induction false} WriteKeepsKeys(contests: map<int, Contest>, entries: seq<EntityEntry>, bound: int)
    requires KeyedBelow(contests, bound) && IssuedIds(entries, bound)
    ensures KeyedBelow(WriteContests(contests, entries), bound)
    decreases |entries|
  {
    if entries != [] {
      WriteKeepsKeys(WriteContest(contests, entries[0]), entries[1..], bound);
    }
  }

  /** The number of entries a save writes. */
  function WrittenCount(entries: seq<EntityEntry>): nat
    decreases |entries|
  {
    if entries == [] then 0
    else (if entries[0].state in {Added, Modified, Deleted} then 1 else 0) + WrittenCount(entries[1..])
  }

  /** The shared in-memory database every context opens onto. */
  class Database {
    var contests: map<int, Contest>
    var contestants: multiset<int>
    /** The next key the store generates for an inserted contest. */
    var nextId: int

    ghost predicate Valid()
      reads this
    {
      KeyedBelow(contests, nextId)
    }

    constructor ()
      ensures Valid() && contests == map[] && contestants == multiset{}
    {
      contests := map[];
      contestants := multiset{};
      nextId := 1;
    }
  }

  class DbCtx {
    /** The database this context opens onto. */
    const db: Database
    /** Bypasses validation; meant for seeding data in tests only. */
    var ignoreLifecycleInterceptor: bool
    const interceptor: EntityLifecycleSaveChangesInterceptor

    /** Whether the next save on this context reaches the validators. */
    predicate Validating()
      reads this, interceptor
    {
      Validates(interceptor.State(), ignoreLifecycleInterceptor)
    }

    /** A new context onto an existing database registers a new interceptor of
        its own; validation is on. */
    constructor (db: Database)
      ensures this.db == db && !ignoreLifecycleInterceptor
      ensures fresh(interceptor) && interceptor.State() == Idle
    {
      this.db := db;
      ignoreLifecycleInterceptor := false;
      interceptor := new EntityLifecycleSaveChangesInterceptor();
    }

    /** The synchronous save: always refused, nothing is written. */
    method SaveChanges() returns (r: Result<int>)
      ensures r.Err? && r.error == SaveChangesAsyncOnly
    {
      r := interceptor.SavingChanges(0);
    }

    /** The asynchronous save of a snapshot at time `now`. When validated and
        vetoed it writes nothing; otherwise it writes every entry and returns
        how many it wrote. The interceptor's flags move as `AfterCommit` says. */
    method SaveChangesAsync(entries: seq<EntityEntry>, now: int) returns (r: Result<int>)
      requires db.Valid() && IssuedIds(entries, db.nextId)
      modifies db`contests, db`contestants, interceptor
      ensures db.Valid()
      ensures r.Ok? <==> Verdict(old(Validating()), now, old(db.contestants), entries).Pass?
      ensures r.Err? ==> r.error == Verdict(old(Validating()), now, old(db.contestants), entries).error
      ensures r.Ok? ==> r.value == WrittenCount(entries)
      ensures interceptor.State() == AfterCommit(old(interceptor.State()), ignoreLifecycleInterceptor, r.Err?)
      ensures r.Ok? ==> db.contests == WriteContests(old(db.contests), entries) &&
                        db.contestants == WriteContestants(old(db.contestants), entries)
      ensures r.Err? ==> db.contests == old(db.contests) && db.contestants == old(db.contestants)
    {
      var saving := interceptor.SavingChangesAsync(ignoreLifecycleInterceptor, Validators(now, db.contestants), entries, 0);
      if saving.Err? {
        return Err(saving.error);
      }
      WriteKeepsKeys(db.contests, entries, db.nextId);
      db.contests := WriteContests(db.contests, entries);
      db.contestants := WriteContestants(db.contestants, entries);
      var written := interceptor.SavedChangesAsync(ignoreLifecycleInterceptor, WrittenCount(entries));
      return Ok(written);
    }

    /** Creates a contest with the given name and default lock date and
        status, and commits it. The insert check always passes, so the
        contest is always stored and returned. */
    method CreateContest(name: string, now: int) returns (r: Result<Contest>)
      requires db.Valid()
      modifies db`contests, db`contestants, db`nextId, interceptor
      ensures db.Valid() && db.contestants == old(db.contestants)
      ensures r.Ok? && r.value == NewContest(old(db.nextId), name, now)
      ensures r.value.id !in old(db.contests) && db.contests == old(db.contests)[r.value.id := r.value]
      ensures interceptor.State() == AfterCommit(old(interceptor.State()), ignoreLifecycleInterceptor, false)
    {
      var contest := NewContest(db.nextId, name, now);
      db.nextId := db.nextId + 1;
      VerdictOfInsert(now, db.contestants, contest);
      var saved := SaveChangesAsync([Inserted(ContestEntity(contest))], now);
      return Ok(contest);
    }

    /** Sets the name and lock date of a stored contest and commits. Under
        validation this succeeds on a Draft contest, and on any other only if
        neither field actually changes. */
    method UpdateContest(id: int, name: string, lockDate: int, now: int) returns (r: Result<Contest>)
      requires db.Valid()
      modifies db`contests, db`contestants, interceptor
      ensures db.Valid() && db.contestants == old(db.contestants)
      ensures id !in old(db.contests) ==>
                r == Err(ContestNotFound) && db.contests == old(db.contests) &&
                interceptor.State() == old(interceptor.State())
      ensures id in old(db.contests) ==>
                var c := old(db.contests)[id];
                var u := c.(name := name, lockDate := lockDate);
                && (r.Ok? ==> r.value == u && db.contests == old(db.contests)[id := u])
                && (r.Err? ==> db.contests == old(db.contests))
                && (r.Ok? <==> !old(Validating()) || c.status == Draft || (name == c.name && lockDate == c.lockDate))
                && (old(Validating()) && c.status != Draft && name != c.name ==> r == Err(NameImmutable))
                && (old(Validating()) && c.status != Draft && name == c.name && lockDate != c.lockDate ==>
                      r == Err(LockDateImmutable))
                && interceptor.State() == AfterCommit(old(interceptor.State()), ignoreLifecycleInterceptor, r.Err?)
    {
      if id !in db.contests {
        return Err(ContestNotFound);
      }
      var original := db.contests[id];
      var contest := original.(name := name, lockDate := lockDate);
      VerdictOfChange(now, db.contestants, original, contest);
      var saved := SaveChangesAsync([TrackedChange(ContestEntity(original), ContestEntity(contest))], now);
      if saved.Err? {
        return Err(saved.error);
      }
      return Ok(contest);
    }

    /** Sets a stored contest's status to Public and commits. Under validation
        a Draft is published exactly when its lock date is at least three days
        out, a Finalized contest is refused, and a Public one is left as is. */
    method PublishContest(id: int, now: int) returns (r: Result<Contest>)
      requires db.Valid()
      modifies db`contests, db`contestants, interceptor
      ensures db.Valid() && db.contestants == old(db.contestants)
      ensures id !in old(db.contests) ==>
                r == Err(ContestNotFound) && db.contests == old(db.contests) &&
                interceptor.State() == old(interceptor.State())
      ensures id in old(db.contests) ==>
                var c := old(db.contests)[id];
                var p := c.(status := Public);
                && (r.Ok? ==> r.value == p && db.contests == old(db.contests)[id := p])
                && (r.Err? ==> db.contests == old(db.contests))
                && (!old(Validating()) || c.status == Public ==> r.Ok?)
                && (old(Validating()) && c.status == Draft ==> (r.Ok? <==> c.lockDate >= now + ThreeDays))
                && (old(Validating()) && c.status == Draft && r.Err? ==> r.error == PublishLockDateTooSoon)
                && (old(Validating()) && c.status == Finalized ==> r == Err(FinalizedToPublic))
                && interceptor.State() == AfterCommit(old(interceptor.State()), ignoreLifecycleInterceptor, r.Err?)
    {
      if id !in db.contests {
        return Err(ContestNotFound);
      }
      var original := db.contests[id];
      var contest := original.(status := Public);
      VerdictOfChange(now, db.contestants, original, contest);
      var saved := SaveChangesAsync([TrackedChange(ContestEntity(original), ContestEntity(contest))], now);
      if saved.Err? {
        return Err(saved.error);
      }
      return Ok(contest);
    }

    /** Sets a stored contest's status to Finalized and commits. Under
        validation a Draft is refused, a Public contest is finalized exactly
        when it has ten stored contestants and its lock date has passed (the
        count is checked first), and a Finalized one is left as is. */
    method FinalizeContest(id: int, now: int) returns (r: Result<Contest>)
      requires db.Valid()
      modifies db`contests, db`contestants, interceptor
      ensures db.Valid() && db.contestants == old(db.contestants)
      ensures id !in old(db.contests) ==>
                r == Err(ContestNotFound) && db.contests == old(db.contests) &&
                interceptor.State() == old(interceptor.State())
      ensures id in old(db.contests) ==>
                var c := old(db.contests)[id];
                var f := c.(status := Finalized);
                var n := old(db.contestants)[id];
                && (r.Ok? ==> r.value == f && db.contests == old(db.contests)[id := f])
                && (r.Err? ==> db.contests == old(db.contests))
                && (!old(Validating()) || c.status == Finalized ==> r.Ok?)
                && (old(Validating()) && c.status == Draft ==> r == Err(DraftToFinalized))
                && (old(Validating()) && c.status == Public ==>
                      (r.Ok? <==> n >= ContestLifecycle.MinContestants && c.lockDate <= now))
                && (old(Validating()) && c.status == Public && n < ContestLifecycle.MinContestants ==>
                      r == Err(FinalizeTooFewContestants))
                && ((old(Validating()) && c.status == Public && n >= ContestLifecycle.MinContestants &&
                     c.lockDate > now) ==> r == Err(FinalizeLockDateNotPassed))
                && interceptor.State() == AfterCommit(old(interceptor.State()), ignoreLifecycleInterceptor, r.Err?)
    {
      if id !in db.contests {
        return Err(ContestNotFound);
      }
      var original := db.contests[id];
      var contest := original.(status := Finalized);
      VerdictOfChange(now, db.contestants, original, contest);
      var saved := SaveChangesAsync([TrackedChange(ContestEntity(original), ContestEntity(contest))], now);
      if saved.Err? {
        return Err(saved.error);
      }
      return Ok(contest);
    }

    /** Removes a stored contest and commits. Under validation the removal is
        refused exactly when some stored contestant references the contest. */
    method DeleteContest(id: int, now: int) returns (r: Outcome)
      requires db.Valid()
      modifies db`contests, db`contestants, interceptor
      ensures db.Valid() && db.contestants == old(db.contestants)
      ensures id !in old(db.contests) ==>
                r == Fail(ContestNotFound) && db.contests == old(db.contests) &&
                interceptor.State() == old(interceptor.State())
      ensures id in old(db.contests) ==>
                && (r.Pass? <==> !old(Validating()) || old(db.contestants)[id] == 0)
                && (r.Pass? ==> db.contests == old(db.contests) - {id})
                && (r.Fail? ==> db.contests == old(db.contests) && r.error == DeleteHasContestants)
                && interceptor.State() == AfterCommit(old(interceptor.State()), ignoreLifecycleInterceptor, r.Fail?)
    {
      if id !in db.contests {
        return Fail(ContestNotFound);
      }
      var contest := db.contests[id];
      VerdictOfRemoval(now, db.contestants, contest);
      var saved := SaveChangesAsync([Removed(ContestEntity(contest))], now);
      if saved.Err? {
        return Fail(saved.error);
      }
      return Pass;
    }
  }
}

=== FILE: contest_lifecycle_handler.dfy ===
/** The Contest state machine: the three hooks of the contest validator.

    Each hook is a chain of guarded rejections. The two store queries of the
    source (how many contestants reference the contest, whether any does)
    are inputs: `contestants` is that count, and the handler built by
    `Handler` takes the count query as a function of the contest id. */
module ContestLifecycle {
  import opened Errors
  import opened Entities
  import opened Persistence

  /** The fewest contestants a contest may be finalized with. */
  const MinContestants: nat := 10

  /** The status pairs an accepted update may have: no change, Draft -> Public
      and Public -> Finalized. */
  predicate AllowedTransition(from: ContestStatus, to: ContestStatus) {
    from == to || (from == Draft && to == Public) || (from == Public && to == Finalized)
  }

  /** Insert hook: a contest may only be inserted as a Draft. */
  function Added(contest: Contest): (r: Outcome)
    ensures r.Pass? <==> contest.status == Draft
    ensures r.Fail? ==> r.error == NotCreatedAsDraft
  {
    if contest.status != Draft then Fail(NotCreatedAsDraft) else Pass
  }

  /** First update check: publishing needs a lock date at least three days out. */
  function PublishGuard(from: ContestStatus, current: Contest, now: int): (r: Outcome)
    ensures r.Fail? <==> from == Draft && current.status == Public && current.lockDate < now + ThreeDays
    ensures r.Fail? ==> r.error == PublishLockDateTooSoon
  {
    if from == Draft && current.status == Public && current.lockDate < now + ThreeDays then
      Fail(PublishLockDateTooSoon)
    else Pass
  }

  /** Second update check: finalizing needs ten contestants, checked first, and
      then a lock date that is not in the future. */
  function FinalizeGuard(from: ContestStatus, current: Contest, contestants: nat, now: int): (r: Outcome)
    ensures r.Fail? <==> from == Public && current.status == Finalized &&
                         (contestants < MinContestants || current.lockDate > now)
    ensures r.Fail? && contestants < MinContestants ==> r.error == FinalizeTooFewContestants
    ensures r.Fail? && contestants >= MinContestants ==> r.error == FinalizeLockDateNotPassed
  {
    if from == Public && current.status == Finalized then
      if contestants < MinContestants then Fail(FinalizeTooFewContestants)
      else if current.lockDate > now then Fail(FinalizeLockDateNotPassed)
      else Pass
    else Pass
  }

  /** Third update check: once the contest is not a Draft (after the update),
      neither its name nor, checked second, its lock date may change. */
  function ImmutabilityGuard(original: Contest, current: Contest): (r: Outcome)
    ensures r.Pass? <==> current.status == Draft ||
                         (current.name == original.name && current.lockDate == original.lockDate)
    ensures r.Fail? && current.name != original.name ==> r.error == NameImmutable
    ensures r.Fail? && current.name == original.name ==> r.error == LockDateImmutable
  {
    if current.status != Draft then
      if current.name != original.name then Fail(NameImmutable)
      else if current.lockDate != original.lockDate then Fail(LockDateImmutable)
      else Pass
    else Pass
  }

  /** Last update check: the table of forbidden transitions, each with its own
      error. Exactly the pairs outside `AllowedTransition` are rejected. */
  function TransitionTable(from: ContestStatus, to: ContestStatus): (r: Outcome)
    ensures r.Pass? <==> AllowedTransition(from, to)
    ensures from == Public && to == Draft ==> r == Fail(PublicToDraft)
    ensures from == Finalized && to == Draft ==> r == Fail(FinalizedToDraft)
    ensures from == Draft && to == Finalized ==> r == Fail(DraftToFinalized)
    ensures from == Finalized && to == Public ==> r == Fail(FinalizedToPublic)
  {
    match (from, to)
    case (Public, Draft) => Fail(PublicToDraft)
    case (Finalized, Draft) => Fail(FinalizedToDraft)
    case (Draft, Finalized) => Fail(DraftToFinalized)
    case (Finalized, Public) => Fail(FinalizedToPublic)
    case _ => Pass
  }

  /** Update hook: the four checks in the source's order; the first rejection
      is the result. An accepted update keeps the status on the path
      Draft -> Public -> Finalized, and freezes the name and lock date of any
      contest that is, or was, past Draft. */
  function Modified(original: Contest, current: Contest, contestants: nat, now: int): (r: Outcome)
    ensures r.Pass? ==> AllowedTransition(original.status, current.status)
    ensures r.Pass? && (original.status != Draft || current.status != Draft) ==>
              current.name == original.name && current.lockDate == original.lockDate
    ensures r.Pass? && original.status == Draft && current.status == Public ==>
              current.lockDate >= now + ThreeDays
    ensures r.Pass? && original.status == Public && current.status == Finalized ==>
              contestants >= MinContestants && current.lockDate <= now
    ensures r.Pass? <==> PublishGuard(original.status, current, now).Pass? &&
                         FinalizeGuard(original.status, current, contestants, now).Pass? &&
                         ImmutabilityGuard(original, current).Pass? &&
                         TransitionTable(original.status, current.status).Pass?
  {
    var publish := PublishGuard(original.status, current, now);
    if publish.Fail? then publish else
    var finalize := FinalizeGuard(original.status, current, contestants, now);
    if finalize.Fail? then finalize else
    var frozen := ImmutabilityGuard(original, current);
    if frozen.Fail? then frozen else
    TransitionTable(original.status, current.status)
  }

  /** Which error wins when several rules are broken at once. */
  lemma ModifiedErrorPrecedence(original: Contest, current: Contest, contestants: nat, now: int)
    // the publish guard is reported before anything else
    ensures original.status == Draft && current.status == Public && current.lockDate < now + ThreeDays ==>
              Modified(original, current, contestants, now) == Fail(PublishLockDateTooSoon)
    // the contestant count is reported before the lock date, and both before any frozen field
    ensures original.status == Public && current.status == Finalized && contestants < MinContestants ==>
              Modified(original, current, contestants, now) == Fail(FinalizeTooFewContestants)
    ensures original.status == Public && current.status == Finalized && contestants >= MinContestants &&
            current.lockDate > now ==>
              Modified(original, current, contestants, now) == Fail(FinalizeLockDateNotPassed)
    // on a forbidden transition into Public or Finalized, a changed name or lock date wins over the table
    ensures !AllowedTransition(original.status, current.status) && current.status != Draft &&
            current.name != original.name ==>
              Modified(original, current, contestants, now) == Fail(NameImmutable)
    ensures !AllowedTransition(original.status, current.status) && current.status != Draft &&
            current.name == original.name && current.lockDate != original.lockDate ==>
              Modified(original, current, contestants, now) == Fail(LockDateImmutable)
    // a revert to Draft skips the frozen-field check and reports the table's error
    ensures original.status == Public && current.status == Draft ==>
              Modified(original, current, contestants, now) == Fail(PublicToDraft)
    ensures original.status == Finalized && current.status == Draft ==>
              Modified(original, current, contestants, now) == Fail(FinalizedToDraft)
    // with both status guards passing, a changed frozen field reports the frozen-field error,
    // even on a pair the table allows (a rename of a Public contest)
    ensures PublishGuard(original.status, current, now).Pass? &&
            FinalizeGuard(original.status, current, contestants, now).Pass? &&
            ImmutabilityGuard(original, current).Fail? ==>
              Modified(original, current, contestants, now) == ImmutabilityGuard(original, current)
    // and with the first three checks passing, the table alone decides
    ensures PublishGuard(original.status, current, now).Pass? &&
            FinalizeGuard(original.status, current, contestants, now).Pass? &&
            ImmutabilityGuard(original, current).Pass? ==>
              Modified(original, current, contestants, now) == TransitionTable(original.status, current.status)
  {
  }

  /** Delete hook: a contest that any contestant references cannot be deleted. */
  function Deleted(contest: Contest, hasContestants: bool): (r: Outcome)
    ensures r.Fail? <==> hasContestants
    ensures r.Fail? ==> r.error == DeleteHasContestants
  {
    if hasContestants then Fail(DeleteHasContestants) else Pass
  }

  function AddedHook(entry: EntityEntry): Outcome {
    match entry.current
    case ContestEntity(c) => Added(c)
    case _ => Pass
  }

  function ModifiedHook(now: int, contestantsOf: int -> nat, entry: EntityEntry): Outcome {
    match (entry.original, entry.current)
    case (ContestEntity(o), ContestEntity(c)) => Modified(o, c, contestantsOf(c.id), now)
    case _ => Pass
  }

  function DeletedHook(contestantsOf: int -> nat, entry: EntityEntry): Outcome {
    match entry.current
    case ContestEntity(c) => Deleted(c, contestantsOf(c.id) > 0)
    case _ => Pass
  }

  /** The contest validator registered with the dispatch base, for a commit at
      time `now` against a store whose contestant count per contest id is
      `contestantsOf`. */
  function Handler(now: int, contestantsOf: int -> nat): LifecycleHandler {
    LifecycleHandler(
      ContestKind,
      AddedHook,
      e => ModifiedHook(now, contestantsOf, e),
      e => DeletedHook(contestantsOf, e))
  }

  /** What the contest validator requires of one entry of an accepted snapshot. */
  predicate RespectsLifecycle(contestantsOf: int -> nat, entry: EntityEntry) {
    match entry.current
    case ContestEntity(c) =>
      (entry.state.Added? ==> c.status == Draft) &&
      (entry.state.Deleted? ==> contestantsOf(c.id) == 0) &&
      (entry.state.Modified? && entry.original.ContestEntity? ==>
         var o := entry.original.contest;
         AllowedTransition(o.status, c.status) &&
         ((o.status != Draft || c.status != Draft) ==> c.name == o.name && c.lockDate == o.lockDate))
    case _ => true
  }

  /** Every contest entry of a snapshot the contest validator accepts is an
      insert in Draft, a delete of a contest no contestant references, or an
      update along Draft -> Public -> Finalized that keeps the name and lock
      date whenever the contest was, or becomes, past Draft. */
  lemma AcceptedSnapshotRespectsLifecycle(now: int, contestantsOf: int -> nat, entries: seq<EntityEntry>)
    requires HandleSpec(Handler(now, contestantsOf), entries).Pass?
    ensures forall i | 0 <= i < |entries| :: RespectsLifecycle(contestantsOf, entries[i])
  {
    var h := Handler(now, contestantsOf);
    HandlePassIff(h, entries);
    forall i | 0 <= i < |entries|
      ensures RespectsLifecycle(contestantsOf, entries[i])
    {
      assert Dispatch(h, entries[i]).Pass?;
    }
  }
}

=== FILE: contest_scenarios.dfy ===
/** Command sequences over one database, proved from the contracts alone. */
module ContestScenarios {
  import opened Errors
  import opened Entities
  import opened Persistence
  import ContestLifecycle
  import opened Interception
  import opened Contests

  /** On ONE context: publishing a contest created earlier, without moving its
      default lock date, is vetoed, because the lock date is three days after
      creation and so less than three days after the publish. The veto leaves
      the context's interceptor with its validation flag raised, so the same
      publish on the same context then goes through unvalidated, and the
      interceptor is idle again. */
  method PublishAgainAfterVeto(name: string, created: int, later: int)
    returns (first: Result<Contest>, second: Result<Contest>)
    requires created < later
    ensures first == Err(PublishLockDateTooSoon)
    ensures second.Ok? && second.value.status == Public && second.value.lockDate < later + ThreeDays
  {
    var db := new Database();
    var ctx := new DbCtx(db);
    var contest := ctx.CreateContest(name, created);
    var id := contest.value.id;
    first := ctx.PublishContest(id, later);
    assert !ctx.Validating();
    second := ctx.PublishContest(id, later);
    assert ctx.interceptor.State() == Idle;
  }

  /** The same publish on a NEW context, as each request gets, is validated
      and vetoed again: the skipped validation does not carry over from the
      context whose save was vetoed. */
  method FreshContextValidatesAgain(name: string, created: int, later: int)
    returns (first: Result<Contest>, second: Result<Contest>)
    requires created < later
    ensures first == Err(PublishLockDateTooSoon)
    ensures second == Err(PublishLockDateTooSoon)
  {
    var db := new Database();
    var ctx := new DbCtx(db);
    var contest := ctx.CreateContest(name, created);
    var id := contest.value.id;
    first := ctx.PublishContest(id, later);
    var next := new DbCtx(db);
    second := next.PublishContest(id, later);
  }

  /** The whole lifecycle over one database, each command on a context of its
      own: create, move the lock date ten days out, publish, seed ten
      contestants through a context that bypasses validation, and finalize
      once the lock date has come. */
  method FullLifecycle(name: string, now: int) returns (finalized: Result<Contest>)
    ensures finalized.Ok? && finalized.value.status == Finalized
    ensures finalized.value.name == name && finalized.value.lockDate == now + 10 * TicksPerDay
  {
    var db := new Database();
    var ctx := new DbCtx(db);
    var created := ctx.CreateContest(name, now);
    var id := created.value.id;
    var lockDate := now + 10 * TicksPerDay;
    ctx := new DbCtx(db);
    var updated := ctx.UpdateContest(id, name, lockDate, now);
    ctx := new DbCtx(db);
    var published := ctx.PublishContest(id, now);
    assert published.Ok?;

    var seeding := new DbCtx(db);
    seeding.ignoreLifecycleInterceptor := true;
    var seeded := 0;
    while seeded < ContestLifecycle.MinContestants
      invariant 0 <= seeded <= ContestLifecycle.MinContestants
      invariant seeding.db == db && db.Valid()
      invariant seeding.ignoreLifecycleInterceptor && seeding.interceptor.State() == Idle
      invariant id in db.contests && db.contests[id] == published.value
      invariant db.contestants[id] == seeded
    {
      var entry := Inserted(ContestantEntity(id));
      assert [entry][1..] == [];
      var saved := seeding.SaveChangesAsync([entry], now);
      seeded := seeded + 1;
    }

    ctx := new DbCtx(db);
    finalized := ctx.FinalizeContest(id, lockDate);
  }

  /** A validator that saves twice on its own context while the outer save is
      in its publish: the first nested save passes through, but its post-save
      hook clears the flags, so the second nested save is validated. */
  method TwoNestedSaves(handlers: seq<LifecycleHandler>, entries: seq<EntityEntry>, result: int)
    returns (first: Result<int>, second: Result<int>)
    ensures first == Ok(result)
    ensures second == Forward(PublishSpec(handlers, entries), result)
  {
    var interceptor := new EntityLifecycleSaveChangesInterceptor();
    var outer := interceptor.SavingChangesAsync(false, handlers, entries, result);
    first := interceptor.SavingChangesAsync(false, handlers, entries, result);
    var written := interceptor.SavedChangesAsync(false, result);
    second := interceptor.SavingChangesAsync(false, handlers, entries, result);
  }
}

=== FILE: entity_lifecycle_handler.dfy ===
/** The change snapshot and the generic per-entity-type dispatch base.

    A snapshot is the list of tracked entries at commit time; each entry has
    the pending state of its entity and the entity's original and current
    values. A `LifecycleHandler` names the entity kind it validates and three
    hooks, one per pending operation; any hook may veto with a `Fail`. */
module Persistence {
  import opened Errors
  import opened Entities

  /** The tracked states an entry can be in. */
  datatype EntityState = Detached | Unchanged | Deleted | Modified | Added

  datatype EntityKind = ContestKind | ContestantKind

  /** A tracked entity: a contest, or a contestant known by the contest it references. */
  datatype Entity = ContestEntity(contest: Contest) | ContestantEntity(contestId: int)
  {
    function Kind(): EntityKind {
      match this
      case ContestEntity(_) => ContestKind
      case ContestantEntity(_) => ContestantKind
    }
  }

  datatype EntityEntry = EntityEntry(state: EntityState, original: Entity, current: Entity)

  /** The entry of an entity that was loaded and then changed in memory: it is
      Modified exactly when some property differs from its original value. */
  function TrackedChange(original: Entity, current: Entity): (e: EntityEntry)
    ensures e.original == original && e.current == current
    ensures e.state == Modified <==> original != current
    ensures e.state == Unchanged <==> original == current
  {
    EntityEntry(if original == current then Unchanged else Modified, original, current)
  }

  /** The entry of an entity handed to the store for insertion. */
  function Inserted(e: Entity): EntityEntry {
    EntityEntry(Added, e, e)
  }

  /** The entry of an entity handed to the store for removal. */
  function Removed(e: Entity): EntityEntry {
    EntityEntry(Deleted, e, e)
  }

  /** A validator for one entity kind, with one hook per pending operation. */
  datatype LifecycleHandler = LifecycleHandler(
    kind: EntityKind,
    added: EntityEntry -> Outcome,
    modified: EntityEntry -> Outcome,
    deleted: EntityEntry -> Outcome)

  /** The default hook: accept. */
  function NoOp(entry: EntityEntry): Outcome {
    Pass
  }

  /** A handler that overrides none of the three hooks. */
  function DefaultHandler(kind: EntityKind): LifecycleHandler {
    LifecycleHandler(kind, NoOp, NoOp, NoOp)
  }

  /** What the handler does with one entry: an entry of another kind, or in a
      state other than Added, Modified or Deleted, reaches no hook; otherwise
      it reaches the one hook its state selects. */
  function Dispatch(h: LifecycleHandler, entry: EntityEntry): (r: Outcome)
    ensures entry.current.Kind() != h.kind ==> r == Pass
    ensures entry.state in {Detached, Unchanged} ==> r == Pass
    ensures entry.current.Kind() == h.kind && entry.state == Added ==> r == h.added(entry)
    ensures entry.current.Kind() == h.kind && entry.state == Modified ==> r == h.modified(entry)
    ensures entry.current.Kind() == h.kind && entry.state == Deleted ==> r == h.deleted(entry)
  {
    if entry.current.Kind() != h.kind then Pass
    else match entry.state
      case Added => h.added(entry)
      case Modified => h.modified(entry)
      case Deleted => h.deleted(entry)
      case _ => Pass
  }

  /** The handler run over a snapshot in list order: the first veto is the result. */
  function HandleSpec(h: LifecycleHandler, entries: seq<EntityEntry>): Outcome
    decreases |entries|
  {
    if entries == [] then Pass
    else
      var first := Dispatch(h, entries[0]);
      if first.Fail? then first else HandleSpec(h, entries[1..])
  }

  /** Walks the snapshot, keeping the entries of the handler's kind, routing
      each by state and stopping at the first hook that vetoes. */
  method Handle(h: LifecycleHandler, entries: seq<EntityEntry>) returns (r: Outcome)
    ensures r == HandleSpec(h, entries)
  {
    var i := 0;
    while i < |entries|
      invariant 0 <= i <= |entries|
      invariant HandleSpec(h, entries) == HandleSpec(h, entries[i..])
    {
      var entry := entries[i];
      assert entries[i..][1..] == entries[i + 1..];
      if entry.current.Kind() == h.kind {
        var outcome := Pass;
        match entry.state {
          case Added => outcome := h.added(entry);
          case Modified => outcome := h.modified(entry);
          case Deleted => outcome := h.deleted(entry);
          case _ =>
        }
        if outcome.Fail? {
          return outcome;
        }
      }
      i := i + 1;
    }
    return Pass;
  }

  /** A snapshot is accepted exactly when every entry's dispatch accepts. */
  lemma {:induction false} HandlePassIff(h: LifecycleHandler, entries: seq<EntityEntry>)
    ensures HandleSpec(h, entries).Pass? <==>
            forall i | 0 <= i < |entries| :: Dispatch(h, entries[i]).Pass?
    decreases |entries|
  {
    if entries != [] {
      HandlePassIff(h, entries[1..]);
      assert forall i | 1 <= i < |entries| :: entries[i] == entries[1..][i - 1];
    }
  }

  /** When the last entry of `visited` is the first to be vetoed, its veto is
      the result whatever follows it: the entries in `rest` are never visited. */
  lemma {:induction false} HandleStopsAtFirstVeto(h: LifecycleHandler, visited: seq<EntityEntry>, rest: seq<EntityEntry>)
    requires |visited| > 0
    requires forall i | 0 <= i < |visited| - 1 :: Dispatch(h, visited[i]).Pass?
    requires Dispatch(h, visited[|visited| - 1]).Fail?
    ensures HandleSpec(h, visited + rest) == Dispatch(h, visited[|visited| - 1])
    decreases |visited|
  {
    assert (visited + rest)[0] == visited[0];
    if |visited| > 1 {
      assert (visited + rest)[1..] == visited[1..] + rest;
      HandleStopsAtFirstVeto(h, visited[1..], rest);
    }
  }

  /** The entries of one kind, in snapshot order. */
  function OfKind(entries: seq<EntityEntry>, kind: EntityKind): (r: seq<EntityEntry>)
    ensures |r| <= |entries|
    ensures forall i | 0 <= i < |r| :: r[i].current.Kind() == kind && r[i] in entries
    ensures forall e :: e in r <==> e in entries && e.current.Kind() == kind
    decreases |entries|
  {
    if entries == [] then []
    else if entries[0].current.Kind() == kind then [entries[0]] + OfKind(entries[1..], kind)
    else OfKind(entries[1..], kind)
  }

  /** Only entries of the handler's kind matter: dropping every other entry
      from the snapshot leaves the result unchanged. */
  lemma {:induction false} HandleSeesOnlyItsKind(h: LifecycleHandler, entries: seq<EntityEntry>)
    ensures HandleSpec(h, entries) == HandleSpec(h, OfKind(entries, h.kind))
    decreases |entries|
  {
    if entries != [] {
      HandleSeesOnlyItsKind(h, entries[1..]);
      if entries[0].current.Kind() == h.kind {
        assert ([entries[0]] + OfKind(entries[1..], h.kind))[1..] == OfKind(entries[1..], h.kind);
      }
    }
  }

  /** A handler that overrides no hook accepts every snapshot. */
  lemma {:induction false} DefaultHandlerAcceptsAll(kind: EntityKind, entries: seq<EntityEntry>)
    ensures HandleSpec(DefaultHandler(kind), entries) == Pass
    decreases |entries|
  {
    if entries != [] {
      DefaultHandlerAcceptsAll(kind, entries[1..]);
    }
  }
}

=== FILE: errors.dfy ===
/** The failures raised by the validation pipeline and the contest commands.
    The source throws an exception carrying a message; each distinct message
    is one constructor here, so callers can tell them apart. */
module Errors {

  datatype Error =
    | ContestNotFound            // a command named an id the store does not hold
    | SaveChangesAsyncOnly       // the synchronous save path was used
    | NotCreatedAsDraft          // a contest was inserted outside the Draft status
    | PublishLockDateTooSoon     // Draft -> Public with a lock date under three days out
    | FinalizeTooFewContestants  // Public -> Finalized with fewer than ten contestants
    | FinalizeLockDateNotPassed  // Public -> Finalized before the lock date
    | NameImmutable              // name changed on a contest that is not Draft
    | LockDateImmutable          // lock date changed on a contest that is not Draft
    | PublicToDraft              // forbidden transition Public -> Draft
    | FinalizedToDraft           // forbidden transition Finalized -> Draft
    | DraftToFinalized           // forbidden transition Draft -> Finalized
    | FinalizedToPublic          // forbidden transition Finalized -> Public
    | DeleteHasContestants       // a contest with contestants was deleted

  /** The result of a hook or a commit that returns nothing but may throw. */
  datatype Outcome = Pass | Fail(error: Error)

  /** The result of an operation that returns a value or throws. */
  datatype Result<T> = Ok(value: T) | Err(error: Error)
}

=== FILE: save_changes_interceptor.dfy ===
/** The commit interceptor: the pre-save publish of the snapshot to the
    registered validators, and the two flags that guard it against
    re-entrance.

    `Flags` with `AfterSaving`, `AfterSaved` and `AfterCommit` is the flag
    state machine as values; the class `EntityLifecycleSaveChangesInterceptor`
    holds the two flags as fields and its methods are proved to follow it. */
module Interception {
  import opened Errors
  import opened Persistence

  /** The validators run one after the other in registration order; the first
      veto aborts the publish and is its result. */
  function PublishSpec(handlers: seq<LifecycleHandler>, entries: seq<EntityEntry>): Outcome
    decreases |handlers|
  {
    if handlers == [] then Pass
    else
      var first := HandleSpec(handlers[0], entries);
      if first.Fail? then first else PublishSpec(handlers[1..], entries)
  }

  /** Publishes the snapshot to every registered validator, in order. */
  method Publish(handlers: seq<LifecycleHandler>, entries: seq<EntityEntry>) returns (r: Outcome)
    ensures r == PublishSpec(handlers, entries)
  {
    var i := 0;
    while i < |handlers|
      invariant 0 <= i <= |handlers|
      invariant PublishSpec(handlers, entries) == PublishSpec(handlers[i..], entries)
    {
      assert handlers[i..][1..] == handlers[i + 1..];
      var outcome := Handle(handlers[i], entries);
      if outcome.Fail? {
        return outcome;
      }
      i := i + 1;
    }
    return Pass;
  }

  /** A publish succeeds exactly when every validator accepts the snapshot. */
  lemma {:induction false} PublishPassIff(handlers: seq<LifecycleHandler>, entries: seq<EntityEntry>)
    ensures PublishSpec(handlers, entries).Pass? <==>
            forall i | 0 <= i < |handlers| :: HandleSpec(handlers[i], entries).Pass?
    decreases |handlers|
  {
    if handlers != [] {
      PublishPassIff(handlers[1..], entries);
      assert forall i | 1 <= i < |handlers| :: handlers[i] == handlers[1..][i - 1];
    }
  }

  /** `result` passed through, or the veto that aborted the save. */
  function Forward(outcome: Outcome, result: int): (r: Result<int>)
    ensures r.Ok? <==> outcome.Pass?
    ensures r.Ok? ==> r.value == result
    ensures r.Err? ==> r.error == outcome.error
  {
    if outcome.Fail? then Err(outcome.error) else Ok(result)
  }

  /** The interceptor's two flags: a save is being validated, and the
      post-save notification is running. */
  datatype Flags = Flags(saving: bool, finalizing: bool)

  const Idle: Flags := Flags(false, false)

  /** Whether a save attempt reaches the validators. */
  predicate Validates(f: Flags, ignore: bool) {
    !ignore && !f.saving
  }

  /** The flags after the pre-save hook: raised unless the context opted out or
      a save is already being validated. */
  function AfterSaving(f: Flags, ignore: bool): (g: Flags)
    ensures g.finalizing == f.finalizing
    ensures ignore ==> g == f
    ensures !ignore ==> g.saving
  {
    if ignore || f.saving then f else f.(saving := true)
  }

  /** The flags after the post-save hook: both cleared unless the context opted
      out or the post-save notification is already running. */
  function AfterSaved(f: Flags, ignore: bool): (g: Flags)
    ensures ignore || f.finalizing ==> g == f
    ensures !ignore && !f.finalizing ==> g == Idle
  {
    if ignore || f.finalizing then f else Idle
  }

  /** The flags after one asynchronous save attempt. A validated attempt that
      is vetoed never reaches the post-save hook, so the flags stay raised;
      every other attempt is written and then reaches it. */
  function AfterCommit(f: Flags, ignore: bool, vetoed: bool): Flags {
    var g := AfterSaving(f, ignore);
    if Validates(f, ignore) && vetoed then g else AfterSaved(g, ignore)
  }

  /** One save attempt on a context: whether the context opts out of
      validation, and whether the validators would veto its snapshot. */
  datatype Attempt = Attempt(ignore: bool, vetoed: bool)

  /** The flags after a series of save attempts on one interceptor. */
  function Run(f: Flags, attempts: seq<Attempt>): Flags
    decreases |attempts|
  {
    if attempts == [] then f
    else
      var last := attempts[|attempts| - 1];
      AfterCommit(Run(f, attempts[..|attempts| - 1]), last.ignore, last.vetoed)
  }

  /** The flags a fresh interceptor has before attempt k. */
  function Before(attempts: seq<Attempt>, k: nat): Flags
    requires k <= |attempts|
  {
    Run(Idle, attempts[..k])
  }

  lemma BeforeStep(attempts: seq<Attempt>, k: nat)
    requires k < |attempts|
    ensures Before(attempts, k + 1) == AfterCommit(Before(attempts, k), attempts[k].ignore, attempts[k].vetoed)
  {
    assert attempts[..k + 1][..k] == attempts[..k];
  }

  /** Between save attempts the post-save flag is never left raised. */
  lemma {:induction false} RunKeepsFinalizingClear(f: Flags, attempts: seq<Attempt>)
    requires !f.finalizing
    ensures !Run(f, attempts).finalizing
    decreases |attempts|
  {
    if attempts != [] {
      RunKeepsFinalizingClear(f, attempts[..|attempts| - 1]);
    }
  }

  /** Reentrancy: right after the pre-save hook has started validating a save,
      the first nested save on the same interceptor, made before any nested
      save has finished, passes through without validation. */
  lemma NestedSaveIsNotValidated(f: Flags, outerIgnore: bool, nestedIgnore: bool)
    requires Validates(f, outerIgnore)
    ensures !Validates(AfterSaving(f, outerIgnore), nestedIgnore)
  {
  }

  /** The guard lasts only until that nested save finishes: its post-save hook
      clears both flags while the outer save is still being validated, so a
      second nested save is validated again. */
  lemma NestedSaveClearsTheGuard(f: Flags, outerIgnore: bool, vetoed: bool)
    requires Validates(f, outerIgnore) && !f.finalizing
    ensures AfterCommit(AfterSaving(f, outerIgnore), false, vetoed) == Idle
    ensures Validates(AfterCommit(AfterSaving(f, outerIgnore), false, vetoed), false)
  {
  }

  /** The validation flag is raised between attempts only in this situation:
      an earlier attempt was validated and vetoed, and every attempt since
      then opted out. */
  lemma {:induction false} SavingOnlyAfterVeto(attempts: seq<Attempt>, k: nat)
    requires k <= |attempts|
    requires Before(attempts, k).saving
    ensures exists j :: 0 <= j < k && Validates(Before(attempts, j), attempts[j].ignore) &&
                        attempts[j].vetoed && forall i :: j < i < k ==> attempts[i].ignore
    decreases k
  {
    if k > 0 {
      BeforeStep(attempts, k - 1);
      RunKeepsFinalizingClear(Idle, attempts[..k - 1]);
      if attempts[k - 1].ignore {
        SavingOnlyAfterVeto(attempts, k - 1);
      }
    }
  }

  /** So an attempt that does not opt out skips validation only right after a
      vetoed one, with nothing but opted-out attempts in between. */
  lemma SkippedOnlyAfterVeto(attempts: seq<Attempt>, k: nat)
    requires k < |attempts| && !attempts[k].ignore
    requires !Validates(Before(attempts, k), attempts[k].ignore)
    ensures exists j :: 0 <= j < k && Validates(Before(attempts, j), attempts[j].ignore) &&
                        attempts[j].vetoed && forall i :: j < i < k ==> attempts[i].ignore
  {
    SavingOnlyAfterVeto(attempts, k);
  }

  /** Conversely, a validated attempt that is vetoed switches validation off
      for the next attempt that does not opt out, however many opted-out
      attempts come between; that attempt then returns the flags to Idle. */
  lemma {:induction false} VetoSkipsNextValidation(attempts: seq<Attempt>, j: nat, k: nat)
    requires j < k < |attempts|
    requires Validates(Before(attempts, j), attempts[j].ignore) && attempts[j].vetoed
    requires forall i :: j < i < k ==> attempts[i].ignore
    ensures Before(attempts, k).saving
    ensures !attempts[k].ignore ==>
              !Validates(Before(attempts, k), attempts[k].ignore) && Before(attempts, k + 1) == Idle
    decreases k - j
  {
    BeforeStep(attempts, k - 1);
    if k - 1 > j {
      VetoSkipsNextValidation(attempts, j, k - 1);
    }
    RunKeepsFinalizingClear(Idle, attempts[..k]);
    BeforeStep(attempts, k);
  }

  class EntityLifecycleSaveChangesInterceptor {
    var isSaving: bool
    var isFinalizing: bool

    function State(): Flags
      reads this
    {
      Flags(isSaving, isFinalizing)
    }

    constructor ()
      ensures State() == Idle
    {
      isSaving := false;
      isFinalizing := false;
    }

    /** The synchronous save path is refused outright, whatever the flags. */
    method SavingChanges(result: int) returns (r: Result<int>)
      ensures r.Err? && r.error == SaveChangesAsyncOnly
    {
      r := Err(SaveChangesAsyncOnly);
    }

    /** The pre-save hook. Passes `result` through when the context opts out
        or a save is already being validated; otherwise raises `isSaving`
        first and then publishes the snapshot, whose veto aborts the save. */
    method SavingChangesAsync(ignore: bool, handlers: seq<LifecycleHandler>, entries: seq<EntityEntry>, result: int)
      returns (r: Result<int>)
      modifies this
      ensures State() == AfterSaving(old(State()), ignore)
      ensures !Validates(old(State()), ignore) ==> r == Ok(result)
      ensures Validates(old(State()), ignore) ==> r == Forward(PublishSpec(handlers, entries), result)
    {
      if ignore {
        return Ok(result);
      }
      if isSaving {
        return Ok(result);
      }
      isSaving := true;
      var published := Publish(handlers, entries);
      return Forward(published, result);
    }

    /** The post-save hook. Unless the context opts out or it is already
        running, it raises `isFinalizing`, publishes the completion (which has
        no subscribers) and then clears both flags. */
    method SavedChangesAsync(ignore: bool, result: int) returns (r: int)
      modifies this
      ensures r == result
      ensures State() == AfterSaved(old(State()), ignore)
    {
      if ignore {
        return result;
      }
      if isFinalizing {
        return result;
      }
      isFinalizing := true;
      // the completion notification is published here; it has no subscribers
      isFinalizing := false;
      isSaving := false;
      return result;
    }
  }
}
